=== FILE: README.md ===
# MemeVote upload pipeline and vote session, in Dafny

This project models the two pages of the MemeVote web application that hold
logic of their own.

- **The upload page** (`app/upload/page.tsx`). It has a client-side file
  acceptance gate: a MIME allow-list, plus a fallback that accepts any name
  ending in `.heic`. It has a seven-stage pipeline state machine:
  `idle → presigning → uploading → registering → captioning → success`, with
  `error` reachable from the gate, from a missing session token and from every
  network step. It also has a reset (the "Upload Another" button of the
  `success` view), a copy-to-clipboard handler, and a rule that
  each preview object URL is revoked before the next one is stored.
- **The vote page** (`app/vote/page.tsx`). Its `init` redirects signed-out
  users. Otherwise it loads the captions, drops those the user already voted
  on, and shuffles the rest with Fisher–Yates. After that, `handleVote` moves a
  cursor through the queue, one exit animation at a time. Two arrow keys are
  bound to votes, and the page shows `remaining` and `allDone`.

Every network call is an input, not a client. Each of the four pipeline steps
receives a reply: a success with its payload, a non-2xx with its body text (a
status code for the raw PUT), or a thrown error with its message. The captions
query, the prior-votes query and each vote insert are inputs too. The random
index of the shuffle is an arbitrary choice `j` in `[0, i]` (`j :| 0 <= j <= i`).
Handlers are atomic steps. The two timers are explicit events: the 300 ms
animation timer and the 2 s "copied" timer. Browser object URLs are abstract
handles in a table of live handles (module `ObjectUrls`).

Modules, one per concern:

- `Common`: `Option`.
- `FileAcceptance`: the allow-list, `isHeic` and `validType`.
- `ObjectUrls`: `createObjectURL` and `revokeObjectURL` as allocate and free.
- `UploadState`: stages, page state, `isProcessing`, the disabled button.
- `UploadPipeline`: `handleUpload`.
- `UploadPage`: file selection, reset, copy, unmount, and the page as a replay of events with its invariant.
- `VoteQueue`: the voted-id filter and the shuffle.
- `VoteSession`: `init`, `handleVote`, the timer, the keys, the counters, and the session as a replay of events.

Behaviour of the code that the model keeps:

- `handleUpload` can re-enter `presigning` from `error` without a reset. A
  failed run keeps the file, and the upload button is enabled in `error`
  (`UploadEnabledWhenFileHeld`).
- `handleUpload` never clears `errorMsg`. A rerun that succeeds keeps the old
  message, which is hidden because it is shown only in `error`.
- `cdnUrl` is stored as soon as the presign step answers. It stays set when a
  later step fails (`CdnUrlSurvivesLaterFailure`).
- JavaScript truthiness is kept where the code tests a string. An empty token
  counts as missing (`MissingToken`), an empty CDN URL as absent (`HasCdnUrl`),
  and an empty vote-page error as no error (`HasError`).

## Model

| member | source | states |
|---|---|---|
| FileAcceptance.ToLower | app/upload/page.tsx:90 | The lower-cased name has the same length as the name, and each character is the ASCII lower case of the original one. |
| FileAcceptance.IsHeic | app/upload/page.tsx:88-90 | `isHeic`: the MIME type is `image/heic`, or the lower-cased name ends with `.heic`. |
| FileAcceptance.IsAccepted | app/upload/page.tsx:91 | `validType`: the MIME type is on the allow-list, or the file is HEIC. |
| FileAcceptance.HeicSuffixIff | app/upload/page.tsx:88-90 | The test "lower-cased name ends with `.heic`" holds exactly when the name's last five characters are `.`, `h`/`H`, `e`/`E`, `i`/`I`, `c`/`C`. |
| FileAcceptance.AcceptedIff | app/upload/page.tsx:23-30 | A file is accepted if and only if its MIME type is one of the six listed types or its name ends in `.heic` in any letter case. The separate `image/heic` test is subsumed by the list. |
| FileAcceptance.HeicNameOverridesMime | app/upload/page.tsx:88-91 | A name ending in `.heic` (any case) is accepted whatever MIME type the browser reports, including a non-HEIC one. |
| FileAcceptance.RejectedIff | app/upload/page.tsx:91-93 | For a MIME type outside the allow-list, the file is rejected exactly when its name lacks the `.heic` extension. |
| ObjectUrls.Create | app/upload/page.tsx:103 | Creating an object URL adds exactly one handle to the live set. On a well-formed table the handle differs from every live one, and the table stays well-formed. |
| ObjectUrls.Revoke | app/upload/page.tsx:73 | Revoking removes that handle from the live set and leaves every other handle as it was. |
| UploadState.ProcessingIsPipeline | app/upload/page.tsx:51 | `isProcessing` holds exactly in the four network stages, that is, in every stage except `idle`, `success` and `error`. |
| UploadState.IsProcessing | app/upload/page.tsx:51 | `isProcessing`: the stage is one of the four network stages. |
| UploadState.UploadDisabled | app/upload/page.tsx:376 | The button's `disabled` expression: no file, or processing. |
| UploadState.UploadEnabledIff | app/upload/page.tsx:376 | The button's `disabled` expression (no file, or processing) is false exactly when a file is held and the stage is `idle`, `success` or `error`. The button is rendered only outside `success`. |
| UploadPipeline.Decimal | app/upload/page.tsx:149 | The status code in the PUT failure message is rendered as decimal digits that spell exactly that code (read back by `DigitsValue`), with no leading zero. |
| UploadPipeline.DigitsValue | app/upload/page.tsx:149 | The number a string of decimal digits spells, read left to right. This is the reference against which `Decimal` is checked. |
| UploadPipeline.MissingToken | app/upload/page.tsx:116 | `!token`: the token is absent or the empty string. |
| UploadPipeline.JsonFailure | app/upload/page.tsx:134-136 | A failed JSON step's message is the step's prefix plus the body text for a non-2xx reply, or the thrown error's own message (page.tsx:181). The same shape holds at :159-161 and :172-174. |
| UploadPipeline.PutFailure | app/upload/page.tsx:148-149 | A failed PUT's message is the status prefix plus the status code for a non-2xx reply, or the thrown error's own message (page.tsx:181). |
| UploadPipeline.Halt | app/upload/page.tsx:180-184 | The catch block records the failure message and enters `error` as the last stage. Requests already sent are kept. |
| UploadPipeline.HandleUpload | app/upload/page.tsx:109-185 | Without a file, nothing changes and nothing is sent. With a file, the run ends in `success` or `error`. The stages entered are a prefix of presigning, uploading, registering, captioning, followed by the final stage. The i-th request belongs to the i-th stage. `success` needs all four requests. Every stage before the last is a processing stage. Only stage, message, captions and CDN URL can change. Captions change only on success, and the message changes only on error. The CDN URL changes only after a successful presign reply, and then to the URL that reply returned. |
| UploadPipeline.MissingTokenHalts | app/upload/page.tsx:113-120 | With no token, or an empty one, the run enters only `error`, with the session-expired message, and sends no request. |
| UploadPipeline.FailureAtStep | app/upload/page.tsx:128-175 | If the first failing reply is at step n, the run enters exactly the stages up to n and then `error`. It sends n+1 requests and shows that step's message: prefix plus body text, the status code, or the thrown message. The requests sent before the failure are the ones a successful run sends: the presign with the token and content type, the PUT to the presigned URL, and the register request with the presign step's CDN URL. So a failed register step still records where the bytes were stored. |
| UploadPipeline.SuccessIff | app/upload/page.tsx:138-179 | `success` is reached if and only if all four steps succeed. The page then holds the captioning payload and the presign step's CDN URL. The requests are the presign, a PUT to the presigned URL, a register request carrying that same CDN URL with `isCommonUse` false, and a caption request for the returned image id, each JSON request bearing the session token. |
| UploadPipeline.CdnUrlSurvivesLaterFailure | app/upload/page.tsx:138-139 | Once the presign step succeeds, the CDN URL it returned stays on the page whatever the later steps do. |
| UploadPage.RevokePreview | app/upload/page.tsx:72-75 | The ref is cleared, and exactly the handle it held leaves the live set. Without a ref nothing changes. Nothing but the ref and the URL table changes. |
| UploadPage.HasCdnUrl | app/upload/page.tsx:220 | `cdnUrl` is truthy: set and not the empty string. |
| UploadPage.HandleFileChange | app/upload/page.tsx:69-107 | Every selection clears captions, CDN URL and copied. Selecting nothing gives `idle` with no file and no preview. A rejected file gives `error` with the unsupported-type message and no file, preview or ref. An accepted file is held in `idle` with a live preview equal to the ref, on a handle that was not live before the call. The previous preview URL is no longer live afterwards. |
| UploadPage.HandleReset | app/upload/page.tsx:187-199 | Reset returns to `idle` with file, preview, ref, message, captions, CDN URL and copied all cleared, and the old preview revoked. |
| UploadPage.HandleCopy | app/upload/page.tsx:219-223 | The copied flag is raised exactly when a non-empty CDN URL exists and the clipboard write succeeds. An empty CDN URL counts as none. Nothing else changes. |
| UploadPage.CopyExpired | app/upload/page.tsx:222-223 | After the two-second timer the flag is down and every other field is unchanged. The next successful copy raises the flag again exactly when a non-empty CDN URL exists. |
| UploadPage.Unmount | app/upload/page.tsx:61-67 | Unmounting revokes exactly the handle held in the ref, if any. |
| UploadPage.StepInv | app/upload/page.tsx:69-222 | Every handler preserves the page invariant. The preview shown is the ref, and it is the only live URL. A file is held exactly when it has a preview, and only if it was accepted. No network stage is left behind. `idle` has no message, captions or CDN URL. `error` has a message. `success` has a file and a CDN URL. |
| UploadPage.ReplayInv | app/upload/page.tsx:69-222 | The page invariant holds after any sequence of selections, uploads, resets, copies and timer callbacks. |
| UploadPage.AtMostOnePreview | app/upload/page.tsx:61-67 | In every reachable state at most one object URL is live, and it is the one held in the `preview` state, which the page renders outside `success`. After unmount, none is live. |
| UploadPage.RejectionBlocksPipeline | app/upload/page.tsx:93-100 | After a rejected selection, `handleUpload` changes nothing, enters no stage and sends no request. |
| UploadPage.UploadEnabledWhenFileHeld | app/upload/page.tsx:376 | In every reachable state the button's `disabled` expression is false exactly when a file is held. So in `idle` and `error` the rendered button is usable exactly when a file is chosen. |
| UploadPage.VideoRejected | app/upload/page.tsx:93-100 | Selecting `clip.mp4` as `video/mp4` gives `error` with the unsupported-type message, and a following upload sends nothing. |
| VoteQueue.VotedIds | app/vote/page.tsx:79-81 | The voted set contains exactly the ids the prior-votes query returned. It is empty when that query returned no data. |
| VoteQueue.Unvoted | app/vote/page.tsx:82 | The filtered queue is no longer than the loaded list and holds no caption with a voted id. |
| VoteQueue.UnvotedCounts | app/vote/page.tsx:79-82 | Each caption occurs in the filtered queue zero times if its id was voted on, and as often as in the loaded list otherwise. |
| VoteQueue.UnvotedIsSubsequence | app/vote/page.tsx:82 | The filtered queue is a subsequence of the loaded list, so the kept captions keep their original relative order. |
| VoteQueue.UnvotedKeepsClean | app/vote/page.tsx:82 | A list with no voted id passes the filter unchanged. |
| VoteQueue.UnvotedIdempotent | app/vote/page.tsx:82 | Filtering twice by the same voted set gives the same queue as filtering once. |
| VoteQueue.UnvotedNothingVoted | app/vote/page.tsx:79-82 | With no prior votes the queue is the loaded list unchanged. |
| VoteQueue.Shuffle | app/vote/page.tsx:86-89 | Whatever index j in [0, i] each iteration picks, the result has the input's length and the same multiset of elements. |
| VoteQueue.PermutationKeepsExclusion | app/vote/page.tsx:79-89 | A permutation of a queue with no voted ids also has no voted ids. |
| VoteSession.Init | app/vote/page.tsx:32-94 | A signed-out user is redirected, and the page loads nothing and keeps loading. A query error shows its message with an empty queue. Otherwise the queue is a permutation of the unvoted captions, the cursor is 0 and there is no animation. In every case no caption in the queue has a voted id, and the session invariant holds with no stored vote. |
| VoteSession.HandleVote | app/vote/page.tsx:99-122 | An insert is attempted exactly when the vote is not blocked. Blocked means no user, an empty queue, an animation in flight, or a cursor at or past the end. The row is the user's vote with the given value on the caption at the cursor. A blocked vote or a failed insert changes nothing. A successful insert starts the right animation for +1 and the left one for -1. |
| VoteSession.Blocked | app/vote/page.tsx:101-104 | The early returns of `handleVote`: no user, an empty queue, an animation in flight, or no caption at the cursor. |
| VoteSession.AnimationEnd | app/vote/page.tsx:115-118 | When the animation timer fires, the cursor moves on by one and the animation clears. |
| VoteSession.KeyDown | app/vote/page.tsx:126-134 | A key's default action is suppressed exactly when the key casts a vote. |
| VoteSession.KeyBindings | app/vote/page.tsx:126-134 | ArrowRight is vote +1, ArrowLeft is vote -1, and any other key casts no vote. |
| VoteSession.Remaining | app/vote/page.tsx:141 | `remaining`: the queue length minus the cursor. |
| VoteSession.HasError | app/vote/page.tsx:142 | `error` is truthy: set and not the empty string. |
| VoteSession.AllDone | app/vote/page.tsx:142 | `allDone`: not loading, no truthy error, and `remaining <= 0`. |
| VoteSession.StepInv | app/vote/page.tsx:99-122 | Each click, key press or timer callback keeps the session invariant and leaves the queue and user unchanged. |
| VoteSession.VotesFollowQueue | app/vote/page.tsx:99-122 | Over any sequence of events, the stored vote rows are the user's votes on the queue's first captions, in queue order, one per caption. Their number is the cursor, plus one while an animation is pending. The cursor never passes the end of the queue. |
| VoteSession.Visit | app/vote/page.tsx:32-122 | Over `init` followed by any events, every stored vote is the signed-in user's, one per queue position in queue order, on a caption the user had not voted on before. The cursor stays within the queue. A signed-out visitor stores nothing. |
| VoteSession.VoteThenTimerAdvancesOne | app/vote/page.tsx:113-119 | A successful vote animates right for +1 and left for -1. Its timer then advances the cursor by exactly one and lowers `remaining` by one, with nothing else changed. |
| VoteSession.AllDoneIff | app/vote/page.tsx:140-142 | Within a session `remaining` is never negative. `allDone` holds exactly when loaded, without a non-empty error, with the cursor at the end of the queue. A loaded page that is not done has a caption at the cursor. |
| VoteSession.EmptyQueryErrorShowsAllDone | app/vote/page.tsx:64-68 | Running `init` for a signed-in user whose captions query fails with an empty message ends with an empty queue and error `""`, and `allDone` holds because the empty error is falsy. |
| VoteSession.BlockedVoteIsNoOp | app/vote/page.tsx:101-104 | A vote while signed out, while loading, during an animation or past the end sends nothing and changes nothing. |

## Left out

- Network I/O. The backend queries, inserts and auth calls, and the `fetch` calls to the captioning API, are inputs (a reply, a row set, a success flag), not clients. Request headers other than the bearer token and content type are not modelled.
- `Math.random`: the shuffle index is an arbitrary choice in `[0, i]`. Uniformity of the resulting order is not modelled.
- Timing. The 300 ms animation delay and the 2 s copied reset are events with no clock. The vote row's `created_datetime_utc` timestamp is left out.
- Concurrency. Overlapping async handlers are not modelled, for example a second vote fired before the first insert resolves, or a file change during an upload. Each handler is one atomic step.
- The clipboard write is a success flag. When it rejects, the page's unhandled rejection leaves `copied` as it was.
- UploadPage.Step: `PageEvent` lets every handler fire in every stage, a superset of what the page offers. In the page, the file input and upload button exist only outside `success` (page.tsx:260-300), "Upload Another" (`handleReset`) only in `success`, and no control calls `handleCopy` at all. The invariants are proved over the larger event set, so they hold for the real one.
- `getSession` throwing is not modelled. The session token is an input.
- Payload shapes are not modelled. A 2xx whose JSON lacks `cdnUrl`, `presignedUrl` or `imageId` is not represented, and a body that fails to parse is a thrown error.
- Caption and image fields other than id and content are not modelled, because no logic reads them.
- The backend's `content is not null` filter and newest-first ordering belong to the query. The model takes the returned rows in whatever order they come.
- Rendering is not modelled: the stage labels, the file input's `accept` hint, the upload page's sign-in gate, and all styling and JSX.
- FileAcceptance.ToLower: folds only ASCII `A`–`Z`, where JavaScript's `toLowerCase` folds all of Unicode. This matters for the `.heic` test only if some non-ASCII character lower-cases to one of `.heic`'s letters alone, which is not proved here.
- VoteSession.Init: `myVotes` stands for the prior-votes query's data. Its error field is ignored, as in the source.
- The navigation bar, showcase, home and login pages are not part of this model. They only render, run one backend select, or start OAuth sign-in.
- The gallery's vote ranking and pagination are outside the two modelled pages.

=== FILE: common.dfy ===
/** Shared helper datatypes. */
module Common {

  /** A value that may be absent; stands for the source's `T | null`. */
  datatype Option<+T> = None | Some(value: T)
}

=== FILE: file_acceptance.dfy ===
/**
 The client-side file-acceptance gate of the upload page: a MIME allow-list
 plus a `.heic` file-name fallback for browsers that omit the HEIC MIME type.
 */
module FileAcceptance {

  /** What the page reads of a selected browser `File`: its name and MIME type. */
  datatype FileInfo = FileInfo(name: string, mimeType: string)

  /** The allow-list of MIME types, in the order the page lists them. */
  const AcceptedTypes: seq<string> :=
    ["image/jpeg", "image/jpg", "image/png", "image/webp", "image/gif", "image/heic"]

  const HeicMime: string := "image/heic"
  const HeicSuffix: string := ".heic"

  /** ASCII lower-casing of one character. */
  function LowerChar(c: char): (r: char)
    ensures 'A' <= c <= 'Z' ==> r as int == c as int + 32
    ensures !('A' <= c <= 'Z') ==> r == c
    ensures !('A' <= r <= 'Z')
  {
    if 'A' <= c <= 'Z' then (c as int + 32) as char else c
  }

  /** Lower-cases a string character by character. */
  function ToLower(s: string): (r: string)
    ensures |r| == |s|
    ensures forall i :: 0 <= i < |s| ==> r[i] == LowerChar(s[i])
  {
    if s == [] then [] else [LowerChar(s[0])] + ToLower(s[1..])
  }

  predicate EndsWith(s: string, suffix: string) {
    |suffix| <= |s| && s[|s| - |suffix|..] == suffix
  }

  /** The page's `isHeic`: the HEIC MIME type, or a name ending in `.heic` in any case. */
  predicate IsHeic(f: FileInfo) {
    f.mimeType == HeicMime || EndsWith(ToLower(f.name), HeicSuffix)
  }

  /** The page's `validType`. */
  predicate IsAccepted(f: FileInfo) {
    f.mimeType in AcceptedTypes || IsHeic(f)
  }

  /** A reference definition of "the name ends in .heic, ignoring case", written
      character by character without any lower-casing function. */
  predicate HasHeicExtension(name: string) {
    var n := |name|;
    && n >= 5
    && name[n - 5] == '.'
    && (name[n - 4] == 'h' || name[n - 4] == 'H')
    && (name[n - 3] == 'e' || name[n - 3] == 'E')
    && (name[n - 2] == 'i' || name[n - 2] == 'I')
    && (name[n - 1] == 'c' || name[n - 1] == 'C')
  }

  lemma LowerCharIs(c: char, lower: char)
    requires 'a' <= lower <= 'z'
    ensures LowerChar(c) == lower <==> (c == lower || c as int == lower as int - 32)
  {
  }

  /** The lower-cased suffix test agrees with the character-wise reference. */
  lemma HeicSuffixIff(name: string)
    ensures EndsWith(ToLower(name), HeicSuffix) <==> HasHeicExtension(name)
  {
    var n := |name|;
    var low := ToLower(name);
    if n >= 5 {
      var tail := low[n - 5..];
      assert tail == [low[n - 5], low[n - 4], low[n - 3], low[n - 2], low[n - 1]];
      LowerCharIs(name[n - 4], 'h');
      LowerCharIs(name[n - 3], 'e');
      LowerCharIs(name[n - 2], 'i');
      LowerCharIs(name[n - 1], 'c');
    }
  }

  /** A file is accepted exactly when its MIME type is one of the six listed types
      or its name ends in `.heic` in any letter case. The separate `image/heic`
      test is subsumed by the list. */
  lemma AcceptedIff(f: FileInfo)
    ensures IsAccepted(f) <==>
      (|| f.mimeType == "image/jpeg" || f.mimeType == "image/jpg"
       || f.mimeType == "image/png" || f.mimeType == "image/webp"
       || f.mimeType == "image/gif" || f.mimeType == "image/heic"
       || HasHeicExtension(f.name))
  {
    HeicSuffixIff(f.name);
  }

  /** A `.HEIC` name is accepted whatever MIME type the browser reports. */
  lemma HeicNameOverridesMime(name: string, mimeType: string)
    requires HasHeicExtension(name)
    ensures IsAccepted(FileInfo(name, mimeType))
  {
    HeicSuffixIff(name);
  }

  /** Outside the allow-list, only the `.heic` name rescues a file. */
  lemma RejectedIff(f: FileInfo)
    requires f.mimeType !in AcceptedTypes
    ensures !IsAccepted(f) <==> !HasHeicExtension(f.name)
  {
    HeicSuffixIff(f.name);
  }
}

=== FILE: object_urls.dfy ===
/**
 An abstract model of the browser's object-URL table behind
 `URL.createObjectURL` and `URL.revokeObjectURL`: each created URL is a fresh
 handle that stays live until it is revoked.
 */
module ObjectUrls {

  type Handle = nat

  /** `live` holds the handles not yet revoked; `next` is the next fresh handle. */
  datatype Table = Table(live: set<Handle>, next: Handle)

  const Empty: Table := Table({}, 0)

  /** Every live handle was allocated, so a new allocation never aliases one. */
  predicate WellFormed(t: Table) {
    forall h :: h in t.live ==> h < t.next
  }

  datatype Created = Created(url: Handle, table: Table)

  /** `URL.createObjectURL`: allocates a handle different from every live one. */
  function Create(t: Table): (c: Created)
    ensures c.table.live == t.live + {c.url}
    ensures WellFormed(t) ==> c.url !in t.live
    ensures WellFormed(t) ==> WellFormed(c.table)
  {
    Created(t.next, Table(t.live + {t.next}, t.next + 1))
  }

  /** `URL.revokeObjectURL`: frees the handle; revoking a dead handle is harmless. */
  function Revoke(t: Table, h: Handle): (r: Table)
    ensures h !in r.live
    ensures forall g :: g != h ==> (g in r.live <==> g in t.live)
    ensures WellFormed(t) ==> WellFormed(r)
  {
    Table(t.live - {h}, t.next)
  }
}

=== FILE: upload_page.dfy ===
/**
 The upload page's other handlers (file selection, reset, copy, unmount), the
 page as a sequence of atomic events, and the invariants every reachable page
 state keeps — among them that at most one preview object URL is live.
 */
module UploadPage {
  import opened Common
  import opened FileAcceptance
  import opened ObjectUrls
  import opened UploadState
  import opened UploadPipeline

  const UnsupportedType: string :=
    "Unsupported file type. Please upload a JPEG, PNG, WebP, GIF, or HEIC image."

  /** Revokes the preview URL held in the ref, if any, and clears the ref. */
  function RevokePreview(s: State): (r: State)
    ensures r.previewRef.None?
    ensures s.previewRef.Some? ==> r.urls.live == s.urls.live - {s.previewRef.value}
    ensures s.previewRef.None? ==> r == s
    ensures r.urls.next == s.urls.next
    ensures r == s.(previewRef := None, urls := r.urls)
  {
    if s.previewRef.Some? then s.(urls := Revoke(s.urls, s.previewRef.value), previewRef := None)
    else s
  }

  /** `handleFileChange`: revoke the old preview, reset the result fields and
      stage, then reject, clear or accept the selection. */
  function HandleFileChange(s: State, selected: Option<FileInfo>): (r: State)
    // every selection resets these first
    ensures r.captions == [] && r.cdnUrl.None? && !r.copied
    ensures selected.None? ==>
      r.file.None? && r.preview.None? && r.stage == Idle && r.errorMsg.None?
    ensures selected.Some? && !IsAccepted(selected.value) ==>
      && r.file.None? && r.preview.None? && r.previewRef.None?
      && r.stage == Error && r.errorMsg == Some(UnsupportedType)
    ensures selected.Some? && IsAccepted(selected.value) ==>
      && r.file == selected && r.stage == Idle && r.errorMsg.None?
      && r.preview.Some? && r.previewRef == r.preview && r.preview.value in r.urls.live
    ensures WellFormed(s.urls) && selected.Some? && IsAccepted(selected.value) ==>
      r.preview.value !in s.urls.live
    // the previous preview URL is revoked before a new one is stored
    ensures WellFormed(s.urls) && s.previewRef.Some? && s.previewRef.value in s.urls.live ==>
      s.previewRef.value !in r.urls.live
    ensures WellFormed(s.urls) ==> WellFormed(r.urls)
  {
    var s1 := RevokePreview(s).(errorMsg := None, stage := Idle, captions := [],
                                cdnUrl := None, copied := false);
    if selected.None? then
      s1.(file := None, preview := None)
    else if !IsAccepted(selected.value) then
      s1.(file := None, preview := None, errorMsg := Some(UnsupportedType), stage := Error)
    else
      var c := Create(s1.urls);
      s1.(urls := c.table, previewRef := Some(c.url), file := selected, preview := Some(c.url))
  }

  /** `handleReset`: back to `idle` with every field cleared and the preview revoked. */
  function HandleReset(s: State): (r: State)
    ensures r.stage == Idle && r.file.None? && r.preview.None? && r.previewRef.None?
    ensures r.errorMsg.None? && r.captions == [] && r.cdnUrl.None? && !r.copied
    ensures s.previewRef.Some? ==> s.previewRef.value !in r.urls.live
    ensures WellFormed(s.urls) ==> WellFormed(r.urls)
  {
    RevokePreview(s).(file := None, preview := None, stage := Idle, errorMsg := None,
                      captions := [], cdnUrl := None, copied := false)
  }

  /** A CDN URL that JavaScript treats as present: set and not the empty string. */
  predicate HasCdnUrl(s: State) {
    s.cdnUrl.Some? && s.cdnUrl.value != ""
  }

  /** `handleCopy`: nothing without a (non-empty) CDN URL; a rejected clipboard
      write leaves the flag alone; otherwise the "copied" flag is raised. */
  function HandleCopy(s: State, clipboardOk: bool): (r: State)
    ensures r.copied <==> s.copied || (s.cdnUrl.Some? && s.cdnUrl.value != "" && clipboardOk)
    ensures r == s.(copied := r.copied)
  {
    if !HasCdnUrl(s) then s
    else if !clipboardOk then s
    else s.(copied := true)
  }

  /** The 2-second timer `handleCopy` starts, when it fires: the flag drops,
      whatever copies came before. */
  function CopyExpired(s: State): (r: State)
    ensures !r.copied
    ensures r == s.(copied := r.copied)
    ensures HandleCopy(r, true).copied <==> HasCdnUrl(s)
  {
    s.(copied := false)
  }

  /** The unmount cleanup: the object-URL table left behind. */
  function Unmount(s: State): (r: Table)
    ensures s.previewRef.Some? ==> r.live == s.urls.live - {s.previewRef.value}
    ensures s.previewRef.None? ==> r == s.urls
  {
    RevokePreview(s).urls
  }

  /** The user actions and timer callbacks the page reacts to. */
  datatype PageEvent =
    | SelectFile(selected: Option<FileInfo>)
    | Upload(token: Option<string>, net: Network)
    | Reset
    | Copy(clipboardOk: bool)
    | CopyTimerFired

  function Step(s: State, e: PageEvent): State {
    match e
    case SelectFile(selected) => HandleFileChange(s, selected)
    case Upload(token, net) => HandleUpload(s, token, net).final
    case Reset => HandleReset(s)
    case Copy(ok) => HandleCopy(s, ok)
    case CopyTimerFired => CopyExpired(s)
  }

  /** The state after handling `events` one at a time, in order. */
  function Replay(s: State, events: seq<PageEvent>): State
    decreases |events|
  {
    if events == [] then s else Replay(Step(s, events[0]), events[1..])
  }

  /** What holds of the page between handlers. */
  predicate Inv(s: State) {
    // the rendered preview is the URL in the ref, and it is the only live one
    && s.preview == s.previewRef
    && s.urls.live == (if s.previewRef.Some? then {s.previewRef.value} else {})
    && WellFormed(s.urls)
    // a file is held exactly when it has a preview, and only if it was accepted
    && (s.file.Some? <==> s.preview.Some?)
    && (s.file.Some? ==> IsAccepted(s.file.value))
    // handlers run to completion, so no network stage is ever left behind
    && !IsProcessing(s.stage)
    && (s.stage == Idle ==> s.errorMsg.None? && s.captions == [] && s.cdnUrl.None?)
    && (s.stage == Error ==> s.errorMsg.Some?)
    && (s.stage == Success ==> s.file.Some? && s.cdnUrl.Some?)
    && (s.copied ==> s.cdnUrl.Some?)
  }

  lemma InitialInv()
    ensures Inv(Initial)
  {
  }

  lemma StepInv(s: State, e: PageEvent)
    requires Inv(s)
    ensures Inv(Step(s, e))
  {
    match e
    case SelectFile(selected) =>
    case Upload(token, net) =>
      var run := HandleUpload(s, token, net);
      if s.file.Some? && !MissingToken(token) && net.presign.Ok? {
        CdnUrlSurvivesLaterFailure(s, token, net);
      }
    case Reset =>
    case Copy(ok) =>
    case CopyTimerFired =>
  }

  /** Every handler preserves the page invariant, over any sequence of events. */
  lemma {:induction false} ReplayInv(s: State, events: seq<PageEvent>)
    requires Inv(s)
    ensures Inv(Replay(s, events))
    decreases |events|
  {
    if events != [] {
      StepInv(s, events[0]);
      ReplayInv(Step(s, events[0]), events[1..]);
    }
  }

  /** At most one preview URL is live in any reachable page state, it is the
      one rendered, and unmounting the page leaves no object URL live. */
  lemma AtMostOnePreview(events: seq<PageEvent>)
    ensures |Replay(Initial, events).urls.live| <= 1
    ensures forall h :: h in Replay(Initial, events).urls.live ==>
      Replay(Initial, events).preview == Some(h)
    ensures Unmount(Replay(Initial, events)).live == {}
  {
    InitialInv();
    ReplayInv(Initial, events);
  }

  /** After a rejected selection the upload action does nothing: no stage is
      entered and no request is sent. */
  lemma RejectionBlocksPipeline(s: State, f: FileInfo, token: Option<string>, net: Network)
    requires !IsAccepted(f)
    ensures HandleUpload(HandleFileChange(s, Some(f)), token, net)
      == UploadRun(HandleFileChange(s, Some(f)), [], [])
  {
  }

  /** In every reachable state the upload action is enabled exactly when a file is held. */
  lemma UploadEnabledWhenFileHeld(events: seq<PageEvent>)
    ensures !UploadDisabled(Replay(Initial, events)) <==> Replay(Initial, events).file.Some?
  {
    InitialInv();
    ReplayInv(Initial, events);
  }

  /** An unsupported video is rejected: `error` with the unsupported-type
      message, and no network request afterwards. */
  lemma VideoRejected(s: State, token: Option<string>, net: Network)
    ensures HandleFileChange(s, Some(FileInfo("clip.mp4", "video/mp4"))).stage == Error
    ensures HandleFileChange(s, Some(FileInfo("clip.mp4", "video/mp4"))).errorMsg
      == Some(UnsupportedType)
    ensures HandleUpload(HandleFileChange(s, Some(FileInfo("clip.mp4", "video/mp4"))),
                         token, net).sent == []
  {
    var f := FileInfo("clip.mp4", "video/mp4");
    RejectedIff(f);
  }
}

=== FILE: upload_pipeline.dfy ===
/**
 The upload page's `handleUpload`: a strictly sequential, single-attempt run
 of four network steps (presign, PUT, register, caption). The network is not
 modelled as a client: each step's reply is an input, and the run records the
 stages it entered and the requests it sent.
 */
module UploadPipeline {
  import opened Common
  import opened FileAcceptance
  import opened UploadState

  /** The reply to a JSON endpoint: a 2xx with its decoded payload, a non-2xx
      with its body text, or a thrown error (a rejected `fetch` or an
      unreadable body) with its message. */
  datatype Reply<T> = Ok(payload: T) | NotOk(body: string) | Threw(message: string)

  /** The reply to the raw PUT: stored, a non-2xx status code, or a thrown error. */
  datatype PutReply = Stored | Status(code: nat) | PutThrew(message: string)

  /** The payload of the presign step. */
  datatype Presigned = Presigned(presignedUrl: string, cdnUrl: string)

  /** The replies the four steps would receive, if asked. */
  datatype Network = Network(
    presign: Reply<Presigned>,
    put: PutReply,
    register: Reply<string>,
    caption: Reply<seq<CaptionRecord>>)

  /** The requests the pipeline sends; `bearer` is the session's access token. */
  datatype Request =
    | PresignRequest(bearer: string, contentType: string)
    | PutRequest(url: string, contentType: string)
    | RegisterRequest(bearer: string, imageUrl: string, isCommonUse: bool)
    | CaptionRequest(bearer: string, imageId: string)

  /** The outcome of one `handleUpload` call: the final state, every stage
      set along the way (in order), and every request sent (in order). */
  datatype UploadRun = UploadRun(final: State, entered: seq<Stage>, sent: seq<Request>)

  const SessionExpired: string := "Session expired, please sign in again."
  const PresignFailed: string := "Failed to get upload URL: "
  const UploadFailed: string := "Upload failed with status "
  const RegisterFailed: string := "Failed to register image: "
  const CaptionFailed: string := "Failed to generate captions: "

  /** The stage during which a request is sent. */
  function StageOf(r: Request): Stage {
    match r
    case PresignRequest(_, _) => Presigning
    case PutRequest(_, _) => Uploading
    case RegisterRequest(_, _, _) => Registering
    case CaptionRequest(_, _) => Captioning
  }

  /** The number a string of decimal digits spells, read left to right. */
  function DigitsValue(s: string): nat
    requires forall i :: 0 <= i < |s| ==> '0' <= s[i] <= '9'
  {
    if s == [] then 0
    else DigitsValue(s[..|s| - 1]) * 10 + (s[|s| - 1] as int - '0' as int)
  }

  /** The decimal rendering of a status code, as a template literal prints it:
      digits that spell the code, with no leading zero. */
  function Decimal(n: nat): (r: string)
    ensures |r| >= 1
    ensures forall i :: 0 <= i < |r| ==> '0' <= r[i] <= '9'
    ensures DigitsValue(r) == n
    ensures |r| > 1 ==> r[0] != '0'
  {
    var d := ['0' + (n % 10) as char];
    if n < 10 then d
    else
      var front := Decimal(n / 10);
      assert (front + d)[..|front + d| - 1] == front;
      front + d
  }

  /** A JavaScript token is missing when it is absent or the empty string. */
  predicate MissingToken(token: Option<string>) {
    token.None? || token.value == ""
  }

  /** The error message a failed JSON step shows: the step's prefix and the
      body text for a non-2xx, or the thrown error's own message. */
  function JsonFailure<T>(prefix: string, reply: Reply<T>): string
    requires !reply.Ok?
  {
    if reply.NotOk? then prefix + reply.body else reply.message
  }

  function PutFailure(reply: PutReply): string
    requires !reply.Stored?
  {
    if reply.Status? then UploadFailed + Decimal(reply.code) else reply.message
  }

  /** The `catch` block: record the message and enter `error`. */
  function Halt(s: State, entered: seq<Stage>, sent: seq<Request>, msg: string): (run: UploadRun)
    ensures run.final.stage == Error && run.final.errorMsg == Some(msg)
    ensures run.entered == entered + [Error] && run.sent == sent
  {
    UploadRun(s.(errorMsg := Some(msg), stage := Error), entered + [Error], sent)
  }

  /** `handleUpload`. Without a file it does nothing; with a missing token it
      fails before any network stage; otherwise it walks the four stages,
      stopping at the first failure. */
  function HandleUpload(s: State, token: Option<string>, net: Network): (run: UploadRun)
    ensures s.file.None? ==> run == UploadRun(s, [], [])
    ensures s.file.Some? ==> run.final.stage == Success || run.final.stage == Error
    ensures s.file.Some? ==>
      |run.sent| <= 4 && run.entered == Pipeline[..|run.sent|] + [run.final.stage]
    ensures forall i :: 0 <= i < |run.sent| ==> StageOf(run.sent[i]) == Pipeline[i]
    ensures s.file.Some? && run.final.stage == Success ==> |run.sent| == 4
    ensures forall i :: 0 <= i < |run.entered| - 1 ==> IsProcessing(run.entered[i])
    ensures !IsProcessing(run.final.stage) || run.final.stage == s.stage
    // only the stage, the message, the captions and the CDN URL can change
    ensures run.final == s.(stage := run.final.stage, errorMsg := run.final.errorMsg,
                            captions := run.final.captions, cdnUrl := run.final.cdnUrl)
    ensures run.final.captions != s.captions ==> run.final.stage == Success
    ensures run.final.errorMsg != s.errorMsg ==> run.final.stage == Error
    // the CDN URL is replaced only by a successful presign reply
    ensures run.final.cdnUrl != s.cdnUrl ==>
      && s.file.Some? && !MissingToken(token) && net.presign.Ok?
      && run.final.cdnUrl == Some(net.presign.payload.cdnUrl)
  {
    if s.file.None? then UploadRun(s, [], [])
    else if MissingToken(token) then Halt(s, [], [], SessionExpired)
    else
      var f := s.file.value;
      var bearer := token.value;
      var r1 := PresignRequest(bearer, f.mimeType);
      if !net.presign.Ok? then
        Halt(s, [Presigning], [r1], JsonFailure(PresignFailed, net.presign))
      else
        var p := net.presign.payload;
        var s2 := s.(cdnUrl := Some(p.cdnUrl));
        var r2 := PutRequest(p.presignedUrl, f.mimeType);
        if !net.put.Stored? then
          Halt(s2, [Presigning, Uploading], [r1, r2], PutFailure(net.put))
        else
          var r3 := RegisterRequest(bearer, p.cdnUrl, false);
          if !net.register.Ok? then
            Halt(s2, [Presigning, Uploading, Registering], [r1, r2, r3],
                 JsonFailure(RegisterFailed, net.register))
          else
            var r4 := CaptionRequest(bearer, net.register.payload);
            if !net.caption.Ok? then
              Halt(s2, Pipeline, [r1, r2, r3, r4], JsonFailure(CaptionFailed, net.caption))
            else
              UploadRun(s2.(captions := net.caption.payload, stage := Success),
                        Pipeline + [Success], [r1, r2, r3, r4])
  }

  /** A reference for where a run stops: the index in `Pipeline` of the first
      step whose reply is not a success, if any. */
  function FirstFailure(net: Network): Option<nat> {
    if !net.presign.Ok? then Some(0)
    else if !net.put.Stored? then Some(1)
    else if !net.register.Ok? then Some(2)
    else if !net.caption.Ok? then Some(3)
    else None
  }

  /** The message a failure at pipeline index `n` shows. */
  function StepMessage(net: Network, n: nat): string
    requires FirstFailure(net) == Some(n)
  {
    if n == 0 then JsonFailure(PresignFailed, net.presign)
    else if n == 1 then PutFailure(net.put)
    else if n == 2 then JsonFailure(RegisterFailed, net.register)
    else JsonFailure(CaptionFailed, net.caption)
  }

  /** A missing session token yields `error` without entering any network stage. */
  lemma MissingTokenHalts(s: State, token: Option<string>, net: Network)
    requires s.file.Some? && MissingToken(token)
    ensures HandleUpload(s, token, net).final.stage == Error
    ensures HandleUpload(s, token, net).final.errorMsg == Some(SessionExpired)
    ensures HandleUpload(s, token, net).entered == [Error]
    ensures HandleUpload(s, token, net).sent == []
  {
  }

  /** A failure injected at pipeline index `n` ends in `error` with that step's
      message, after entering exactly the stages up to and including `n`. */
  lemma FailureAtStep(s: State, token: Option<string>, net: Network, n: nat)
    requires s.file.Some? && !MissingToken(token)
    requires FirstFailure(net) == Some(n)
    ensures n < 4
    ensures HandleUpload(s, token, net).final.stage == Error
    ensures HandleUpload(s, token, net).final.errorMsg == Some(StepMessage(net, n))
    ensures HandleUpload(s, token, net).entered == Pipeline[..n + 1] + [Error]
    ensures |HandleUpload(s, token, net).sent| == n + 1
    // the requests sent before the failure are the ones a successful run sends
    ensures HandleUpload(s, token, net).sent[0] == PresignRequest(token.value, s.file.value.mimeType)
    ensures n >= 1 ==>
      HandleUpload(s, token, net).sent[1]
        == PutRequest(net.presign.payload.presignedUrl, s.file.value.mimeType)
    ensures n >= 2 ==>
      HandleUpload(s, token, net).sent[2]
        == RegisterRequest(token.value, net.presign.payload.cdnUrl, false)
    ensures n >= 3 ==>
      HandleUpload(s, token, net).sent[3] == CaptionRequest(token.value, net.register.payload)
  {
    var run := HandleUpload(s, token, net);
    if n == 0 {
      assert run.entered == [Presigning, Error];
    } else if n == 1 {
      assert run.entered == [Presigning, Uploading, Error];
    } else if n == 2 {
      assert run.entered == [Presigning, Uploading, Registering, Error];
    } else {
      assert Pipeline[..4] == Pipeline;
    }
  }

  /** `success` is reached exactly when every step succeeds; the captions shown
      are the captioning payload, and the CDN URL kept is the presign step's,
      which is also the URL the register step was sent. Every authenticated
      request carries the session token. */
  lemma SuccessIff(s: State, token: Option<string>, net: Network)
    requires s.file.Some? && !MissingToken(token)
    ensures HandleUpload(s, token, net).final.stage == Success <==> FirstFailure(net).None?
    ensures FirstFailure(net).None? ==>
      var run := HandleUpload(s, token, net);
      var p := net.presign.payload;
      && run.final.captions == net.caption.payload
      && run.final.cdnUrl == Some(p.cdnUrl)
      && run.sent == [PresignRequest(token.value, s.file.value.mimeType),
                      PutRequest(p.presignedUrl, s.file.value.mimeType),
                      RegisterRequest(token.value, p.cdnUrl, false),
                      CaptionRequest(token.value, net.register.payload)]
  {
    if FirstFailure(net).Some? {
      FailureAtStep(s, token, net, FirstFailure(net).value);
    }
  }

  /** Once the presign step has answered, the CDN URL it returned stays on the
      page even if a later step fails. */
  lemma CdnUrlSurvivesLaterFailure(s: State, token: Option<string>, net: Network)
    requires s.file.Some? && !MissingToken(token)
    requires net.presign.Ok?
    ensures HandleUpload(s, token, net).final.cdnUrl == Some(net.presign.payload.cdnUrl)
  {
  }
}

=== FILE: upload_state.dfy ===
/**
 The state of the upload page: the seven pipeline stages and the page's
 React state, with the preview-URL ref and the browser's object-URL table.
 */
module UploadState {
  import opened Common
  import opened FileAcceptance
  import opened ObjectUrls

  datatype Stage = Idle | Presigning | Uploading | Registering | Captioning | Success | Error

  /** A caption returned by the captioning service; other fields are carried opaquely. */
  datatype CaptionRecord = CaptionRecord(id: string, content: string)

  /** The four network stages, in the order the pipeline enters them. */
  const Pipeline: seq<Stage> := [Presigning, Uploading, Registering, Captioning]

  /** Everything the page keeps: its React state, `previewUrlRef`, and the
      browser's table of live object URLs. */
  datatype State = State(
    file: Option<FileInfo>,
    preview: Option<Handle>,
    stage: Stage,
    errorMsg: Option<string>,
    captions: seq<CaptionRecord>,
    cdnUrl: Option<string>,
    copied: bool,
    previewRef: Option<Handle>,
    urls: Table)

  /** The page as first rendered: nothing selected, no object URL created. */
  const Initial: State := State(None, None, Idle, None, [], None, false, None, ObjectUrls.Empty)

  /** `isProcessing`: the page is inside one of the four network stages. */
  predicate IsProcessing(st: Stage) {
    st.Presigning? || st.Uploading? || st.Registering? || st.Captioning?
  }

  /** The "Generate Captions" button is disabled with no file or while processing. */
  predicate UploadDisabled(s: State) {
    s.file.None? || IsProcessing(s.stage)
  }

  /** The processing stages are exactly the pipeline's four network stages. */
  lemma ProcessingIsPipeline(st: Stage)
    ensures IsProcessing(st) <==> st in Pipeline
    ensures IsProcessing(st) <==> !(st == Idle || st == Success || st == Error)
  {
  }

  /** The upload action is available exactly when a file is chosen and no stage is in flight. */
  lemma UploadEnabledIff(s: State)
    ensures !UploadDisabled(s) <==> s.file.Some? && s.stage in {Idle, Success, Error}
  {
  }
}

=== FILE: vote_queue.dfy ===
/**
 Building the vote page's queue: drop the captions the user has already
 voted on, keeping the order of the rest, then shuffle in place with
 Fisher-Yates. The random index is an arbitrary choice in range.
 */
module VoteQueue {
  import opened Common

  /** A caption row as the vote page reads it; image fields are left out. */
  datatype Caption = Caption(id: string, content: string)

  /** `a` is `b` with some elements dropped and the rest in their original order. */
  predicate IsSubsequence<T(==)>(a: seq<T>, b: seq<T>)
    decreases |b|
  {
    if a == [] then true
    else if b == [] then false
    else (a[0] == b[0] && IsSubsequence(a[1..], b[1..])) || IsSubsequence(a, b[1..])
  }

  /** The set of caption ids the user has already voted on; an absent vote
      list (a query that returned no data) excludes nothing. */
  function VotedIds(myVotes: Option<seq<string>>): (r: set<string>)
    ensures myVotes.None? ==> r == {}
    ensures myVotes.Some? ==> forall id :: id in r <==> id in myVotes.value
  {
    if myVotes.None? then {} else set id | id in myVotes.value
  }

  /** The captions whose id is not in the voted set, in their original order. */
  function Unvoted(cs: seq<Caption>, voted: set<string>): (r: seq<Caption>)
    ensures |r| <= |cs|
    ensures forall i :: 0 <= i < |r| ==> r[i].id !in voted
  {
    if cs == [] then []
    else if cs[0].id in voted then Unvoted(cs[1..], voted)
    else [cs[0]] + Unvoted(cs[1..], voted)
  }

  /** The filter drops every caption with a voted id and keeps every other
      caption as many times as it occurs. */
  lemma {:induction false} UnvotedCounts(cs: seq<Caption>, voted: set<string>, c: Caption)
    ensures multiset(Unvoted(cs, voted))[c] == if c.id in voted then 0 else multiset(cs)[c]
  {
    if cs != [] {
      assert cs == [cs[0]] + cs[1..];
      UnvotedCounts(cs[1..], voted, c);
    }
  }

  /** The kept captions appear in their original relative order. */
  lemma {:induction false} UnvotedIsSubsequence(cs: seq<Caption>, voted: set<string>)
    ensures IsSubsequence(Unvoted(cs, voted), cs)
  {
    if cs != [] {
      UnvotedIsSubsequence(cs[1..], voted);
      var rest := Unvoted(cs[1..], voted);
      if cs[0].id !in voted {
        assert ([cs[0]] + rest)[1..] == rest;
      }
    }
  }

  /** A list with no voted id passes the filter unchanged. */
  lemma {:induction false} UnvotedKeepsClean(cs: seq<Caption>, voted: set<string>)
    requires forall i :: 0 <= i < |cs| ==> cs[i].id !in voted
    ensures Unvoted(cs, voted) == cs
  {
    if cs != [] {
      UnvotedKeepsClean(cs[1..], voted);
      assert cs == [cs[0]] + cs[1..];
    }
  }

  /** Filtering twice by the same set is filtering once. */
  lemma UnvotedIdempotent(cs: seq<Caption>, voted: set<string>)
    ensures Unvoted(Unvoted(cs, voted), voted) == Unvoted(cs, voted)
  {
    UnvotedKeepsClean(Unvoted(cs, voted), voted);
  }

  /** With nothing voted, the filter keeps the whole list. */
  lemma UnvotedNothingVoted(cs: seq<Caption>)
    ensures Unvoted(cs, {}) == cs
  {
    UnvotedKeepsClean(cs, {});
  }

  /** The shuffle loop of `init`: for `i` from the last index down to 1, swap
      `a[i]` with `a[j]` for some `j` in `[0, i]`. The result is a permutation
      of the input whichever indices are chosen. */
  method Shuffle<T>(s: seq<T>) returns (r: seq<T>)
    ensures |r| == |s|
    ensures multiset(r) == multiset(s)
  {
    var a := new T[|s|](k requires 0 <= k < |s| => s[k]);
    assert a[..] == s;
    var i := |s| - 1;
    while i > 0
      invariant i < a.Length
      invariant multiset(a[..]) == multiset(s)
    {
      var j :| 0 <= j <= i;
      a[i], a[j] := a[j], a[i];
      i := i - 1;
    }
    r := a[..];
  }

  /** A permutation keeps exactly the same elements, so a shuffled queue still
      holds no caption whose id was voted on. */
  lemma PermutationKeepsExclusion(q: seq<Caption>, p: seq<Caption>, voted: set<string>)
    requires multiset(q) == multiset(p)
    requires forall i :: 0 <= i < |p| ==> p[i].id !in voted
    ensures forall i :: 0 <= i < |q| ==> q[i].id !in voted
  {
    forall i | 0 <= i < |q|
      ensures q[i].id !in voted
    {
      assert q[i] in multiset(q);
      assert q[i] in multiset(p);
      var k :| 0 <= k < |p| && p[k] == q[i];
    }
  }
}

=== FILE: vote_session.dfy ===
/**
 The vote page as a state machine: `init` (redirect, load, filter, shuffle),
 `handleVote` with its guard and exit animation, the animation timer that
 moves the cursor, the keyboard bindings, and the `remaining`/`allDone`
 counters shown to the user.
 */
module VoteSession {
  import opened Common
  import opened VoteQueue

  /** A vote's value, `1 | -1` in the source. */
  type VoteValue = v: int | v == 1 || v == -1 witness 1

  datatype Direction = Left | Right

  /** The row `handleVote` inserts into `caption_votes`; the timestamp is left out. */
  datatype VoteRow = VoteRow(profileId: string, captionId: string, value: VoteValue)

  /** The page's React state; `redirected` records the redirect to the sign-in page. */
  datatype VoteState = VoteState(
    user: Option<string>,
    captions: seq<Caption>,
    loading: bool,
    error: Option<string>,
    index: nat,
    animating: Option<Direction>,
    redirected: bool)

  const Initial: VoteState := VoteState(None, [], true, None, 0, None, false)

  /** The reply to the captions query: rows (possibly `null`) or an error message. */
  datatype CaptionQuery = Rows(data: Option<seq<Caption>>) | QueryError(message: string)

  /** The loaded rows, or none when the query returned no data. */
  function RowsOf(data: Option<seq<Caption>>): seq<Caption> {
    if data.None? then [] else data.value
  }

  /** `init`: redirect when signed out; otherwise load, drop the voted
      captions, shuffle, and stop loading. `myVotes` is the user's earlier
      votes' caption ids, absent when that query returned no data. */
  method Init(user: Option<string>, query: CaptionQuery, myVotes: Option<seq<string>>)
    returns (st: VoteState)
    ensures user.None? ==> st == Initial.(redirected := true)
    ensures user.Some? ==>
      && st.user == user && !st.loading && !st.redirected
      && st.index == 0 && st.animating.None?
    ensures user.Some? && query.QueryError? ==>
      st.error == Some(query.message) && st.captions == []
    ensures user.Some? && query.Rows? ==>
      && st.error.None?
      && multiset(st.captions) == multiset(Unvoted(RowsOf(query.data), VotedIds(myVotes)))
    ensures forall i :: 0 <= i < |st.captions| ==> st.captions[i].id !in VotedIds(myVotes)
    ensures SessionInv(st, [])
  {
    if user.None? {
      return Initial.(redirected := true);
    }
    if query.QueryError? {
      return Initial.(user := user, error := Some(query.message), loading := false);
    }
    var kept := Unvoted(RowsOf(query.data), VotedIds(myVotes));
    var queue := Shuffle(kept);
    PermutationKeepsExclusion(queue, kept, VotedIds(myVotes));
    st := Initial.(user := user, captions := queue, loading := false);
  }

  /** The early return of `handleVote`: no user, an empty queue, an animation
      in flight, or no caption at the cursor. */
  predicate Blocked(st: VoteState) {
    st.user.None? || |st.captions| == 0 || st.animating.Some? || st.index >= |st.captions|
  }

  function DirectionOf(value: VoteValue): Direction {
    if value == 1 then Right else Left
  }

  /** The state after the handler, and the row it tried to insert, if any. */
  datatype VoteOutcome = VoteOutcome(next: VoteState, attempted: Option<VoteRow>)

  /** The vote handler for one value, given whether the insert succeeded. */
  function HandleVote(st: VoteState, value: VoteValue, insertOk: bool): (r: VoteOutcome)
    ensures r.attempted.Some? <==> !Blocked(st)
    ensures r.attempted.Some? ==>
      r.attempted.value == VoteRow(st.user.value, st.captions[st.index].id, value)
    ensures Blocked(st) || !insertOk ==> r.next == st
    ensures !Blocked(st) && insertOk ==>
      r.next == st.(animating := Some(if value == 1 then Right else Left))
  {
    if Blocked(st) then VoteOutcome(st, None)
    else
      var row := VoteRow(st.user.value, st.captions[st.index].id, value);
      if insertOk then VoteOutcome(st.(animating := Some(DirectionOf(value))), Some(row))
      else VoteOutcome(st, Some(row))
  }

  /** The 300 ms timer a successful vote starts: the cursor moves on and the
      animation ends. With no animation no timer is pending, so nothing happens. */
  function AnimationEnd(st: VoteState): (r: VoteState)
    ensures st.animating.Some? ==> r.index == st.index + 1 && r.animating.None?
    ensures st.animating.None? ==> r == st
    ensures r.captions == st.captions && r.user == st.user
  {
    if st.animating.Some? then st.(index := st.index + 1, animating := None) else st
  }

  /** What a key press does: whether the default is suppressed, and which vote it casts. */
  datatype KeyEffect = KeyEffect(preventDefault: bool, vote: Option<VoteValue>)

  function KeyDown(key: string): (r: KeyEffect)
    ensures r.preventDefault <==> r.vote.Some?
  {
    if key == "ArrowRight" then KeyEffect(true, Some(1))
    else if key == "ArrowLeft" then KeyEffect(true, Some(-1))
    else KeyEffect(false, None)
  }

  /** How many captions are left: the queue length minus the cursor. */
  function Remaining(st: VoteState): int {
    |st.captions| - st.index
  }

  /** An error JavaScript treats as present: set and not the empty string. */
  predicate HasError(st: VoteState) {
    st.error.Some? && st.error.value != ""
  }

  /** The page is done: loaded, with no error showing, and nothing left. */
  predicate AllDone(st: VoteState) {
    !st.loading && !HasError(st) && Remaining(st) <= 0
  }

  /** The events the page reacts to after `init`. */
  datatype VoteEvent =
    | Press(value: VoteValue, insertOk: bool)
    | Key(key: string, insertOk: bool)
    | TimerFired

  /** One event; the second component is the row stored, if the insert succeeded. */
  function Step(st: VoteState, e: VoteEvent): (VoteState, Option<VoteRow>) {
    match e
    case Press(value, ok) =>
      var o := HandleVote(st, value, ok);
      (o.next, if ok then o.attempted else None)
    case Key(key, ok) =>
      var k := KeyDown(key);
      if k.vote.None? then (st, None)
      else
        var o := HandleVote(st, k.vote.value, ok);
        (o.next, if ok then o.attempted else None)
    case TimerFired => (AnimationEnd(st), None)
  }

  /** Replays `events`, appending every stored vote row to `stored`. */
  function Replay(st: VoteState, stored: seq<VoteRow>, events: seq<VoteEvent>): (VoteState, seq<VoteRow>)
    decreases |events|
  {
    if events == [] then (st, stored)
    else
      var (next, row) := Step(st, events[0]);
      Replay(next, if row.Some? then stored + [row.value] else stored, events[1..])
  }

  /** What holds between handlers: the cursor stays within the queue, an
      animation means a stored vote whose timer is pending, and the stored
      rows are the user's votes on the queue's first captions, in order. */
  predicate SessionInv(st: VoteState, stored: seq<VoteRow>) {
    && st.index <= |st.captions|
    && (st.animating.Some? ==> st.index < |st.captions|)
    && |stored| == st.index + (if st.animating.Some? then 1 else 0)
    && (|stored| > 0 ==> st.user.Some?)
    && forall k :: 0 <= k < |stored| ==>
         stored[k].captionId == st.captions[k].id && Some(stored[k].profileId) == st.user
  }

  lemma StepInv(st: VoteState, stored: seq<VoteRow>, e: VoteEvent)
    requires SessionInv(st, stored)
    ensures var (next, row) := Step(st, e);
      && SessionInv(next, if row.Some? then stored + [row.value] else stored)
      && next.captions == st.captions && next.user == st.user
  {
  }

  /** Over any sequence of clicks, key presses and timer callbacks, the votes
      stored are for the queue's captions in queue order, one per caption, and
      the cursor counts the votes whose animation has finished. */
  lemma {:induction false} VotesFollowQueue(st: VoteState, stored: seq<VoteRow>, events: seq<VoteEvent>)
    requires SessionInv(st, stored)
    ensures SessionInv(Replay(st, stored, events).0, Replay(st, stored, events).1)
    ensures Replay(st, stored, events).0.captions == st.captions
    ensures Replay(st, stored, events).0.user == st.user
    decreases |events|
  {
    if events != [] {
      StepInv(st, stored, events[0]);
      var (next, row) := Step(st, events[0]);
      VotesFollowQueue(next, if row.Some? then stored + [row.value] else stored, events[1..]);
    }
  }

  /** A failed captions query whose message is the empty string counts as no
      error in JavaScript, so after `init` the page shows "all done" over its
      empty queue. */
  method EmptyQueryErrorShowsAllDone(user: string, myVotes: Option<seq<string>>)
    returns (st: VoteState)
    ensures st.error == Some("") && st.captions == []
    ensures AllDone(st)
  {
    st := Init(Some(user), QueryError(""), myVotes);
  }

  /** A whole visit to the page: `init`, then any clicks, key presses and
      timer callbacks. Every stored vote is the signed-in user's, on a caption
      of the queue they had not voted on before, one per queue position in
      queue order; a signed-out visitor stores nothing. */
  method Visit(user: Option<string>, query: CaptionQuery, myVotes: Option<seq<string>>,
               events: seq<VoteEvent>)
    returns (st: VoteState, stored: seq<VoteRow>)
    ensures user.None? ==> stored == []
    ensures st.index <= |st.captions|
    ensures |stored| == st.index + (if st.animating.Some? then 1 else 0)
    ensures |stored| <= |st.captions|
    ensures forall k :: 0 <= k < |stored| ==>
      && stored[k].captionId == st.captions[k].id
      && stored[k].captionId !in VotedIds(myVotes)
      && Some(stored[k].profileId) == user
  {
    var start := Init(user, query, myVotes);
    VotesFollowQueue(start, [], events);
    st, stored := Replay(start, [], events).0, Replay(start, [], events).1;
  }

  /** A successful vote followed by its timer advances the cursor by exactly
      one and lowers `remaining` by one; the exit animation goes right for +1
      and left for -1. */
  lemma VoteThenTimerAdvancesOne(st: VoteState, value: VoteValue)
    requires !Blocked(st)
    ensures HandleVote(st, value, true).next.animating == Some(DirectionOf(value))
    ensures DirectionOf(value) == Right <==> value == 1
    ensures AnimationEnd(HandleVote(st, value, true).next) == st.(index := st.index + 1)
    ensures Remaining(AnimationEnd(HandleVote(st, value, true).next)) == Remaining(st) - 1
  {
  }

  /** Only the two arrow keys vote: right is +1 and left is -1. */
  lemma KeyBindings(key: string)
    ensures KeyDown(key).vote == Some(1) <==> key == "ArrowRight"
    ensures KeyDown(key).vote == Some(-1) <==> key == "ArrowLeft"
    ensures KeyDown(key).vote.None? <==> key != "ArrowRight" && key != "ArrowLeft"
  {
  }

  /** Within a session `remaining` never goes negative, "all done" means the
      loaded queue is exhausted, and while not done a loaded page has a caption
      at the cursor. */
  lemma AllDoneIff(st: VoteState, stored: seq<VoteRow>)
    requires SessionInv(st, stored)
    ensures Remaining(st) >= 0
    ensures AllDone(st) <==>
      !st.loading && (st.error.None? || st.error.value == "") && st.index == |st.captions|
    ensures !st.loading && (st.error.None? || st.error.value == "") && !AllDone(st) ==>
      st.index < |st.captions|
  {
  }

  /** A vote while signed out, before loading, during an animation or past
      the end of the queue sends nothing and changes nothing. */
  lemma BlockedVoteIsNoOp(st: VoteState, value: VoteValue, insertOk: bool)
    requires st.user.None? || st.loading || st.animating.Some? || st.index >= |st.captions|
    requires st.loading ==> st.captions == []
    ensures HandleVote(st, value, insertOk) == VoteOutcome(st, None)
  {
  }
}
